=== FILE: README.md ===
# Resume builder: input cleaning and form assembly

A Dafny model of the part of the resume builder's `/generate` handler
(`app.py`, `generate_resume`) that works on the values posted with the form:

- `sanitize_input`, applied to every field: HTML tags are removed with
  `re.sub(r"<[^>]*?>", "", text)` and the result is `strip()`ped; an empty
  value stays "" (module `Sanitizer`, file `sanitizer.dfy`);
- the education and experience entries, built by `zip`ping the parallel
  lists `degree[]`, `institution[]`, `year_of_passing[]` and `job_title[]`,
  `company[]`, `exp_start[]`, `exp_end[]`, `experience_desc[]`, every value
  cleaned (module `ResumeForm`, file `form.dfy`);
- the required-field check on the cleaned name, email and phone, the values
  handed to the template, and the output file name
  `f"{name.replace(' ', '_')}_resume.pdf"` joined under `output`
  (module `Generate`, file `generate.dfy`).

The tag pattern is modelled as the scan Python's regular-expression engine
performs: at a '<' with some '>' after it, the match runs to the first such
'>' and is removed; anywhere else the character is kept. `strip()` removes
the characters for which Python's `str.isspace` holds, from both ends.
A submitted form is a map from field name to the list of posted values;
`form.get(key, "")` is the first value or "", and `form.getlist(key)` is the
list or [].

## Model

| member | source | states |
|---|---|---|
| Sanitizer.Sanitize | app.py:35-39 | an empty field cleans to ""; the cleaned value contains no '<' followed later by a '>' and has no whitespace at either end |
| Sanitizer.SanitizeIdempotent | app.py:35-39 | cleaning a cleaned value changes nothing |
| Sanitizer.SanitizeSubsequence | app.py:39 | the cleaned value is the input with characters deleted, so it is never longer than the input |
| Sanitizer.SanitizeBlankIff | app.py:37-39 | a field cleans to "" exactly when only whitespace is left of it once its tags are removed |
| Sanitizer.NoAngleOnlyTrims | app.py:39 | text without a '<' is only trimmed |
| Sanitizer.VisibleTextSurvives | app.py:39 | text without a '<' that has a non-whitespace character never cleans to "" |
| Sanitizer.UnclosedAngleSurvives | app.py:39 | from a '<' with no later '>' onwards the text is kept verbatim apart from trailing whitespace, and only the part before it is cleaned |
| Sanitizer.UnclosedAngleKept | app.py:39 | a '<' with no later '>' appears in the cleaned value |
| Sanitizer.StripTags | app.py:39 | the `re.sub` tag-removal pass never lengthens its input |
| Sanitizer.StripTagsDropsTag | app.py:39 | the match is lazy: a tag `<t>` with no '>' inside ends at its own '>', the text before it is kept and the rest is cleaned on its own, so "a<b>c<d>e" becomes "ace" |
| Sanitizer.StripTagsPlainPrefix | app.py:39 | text without '<' is copied unchanged whatever follows it |
| Sanitizer.StripTagsNoTag | app.py:39 | after tag removal no '<' is followed anywhere later by a '>', including a tag formed by text on both sides of a removed one |
| Sanitizer.StripTagsSubsequence | app.py:39 | tag removal only deletes characters |
| Sanitizer.StripTagsFixpoint | app.py:39 | tag removal leaves a value unchanged exactly when it holds no '<' followed later by a '>' |
| Sanitizer.StripTagsKeepsTail | app.py:39 | text with no '>' in it passes through tag removal unchanged and does not affect how the text before it is cleaned |
| Sanitizer.AfterClose | app.py:39 | a match started at '<' ends at the first '>' after it; scanning resumes right after it |
| Sanitizer.AfterCloseConcat | app.py:39 | the end of a match does not depend on text after its closing '>' |
| Sanitizer.Lead | app.py:39 | the whitespace run `strip()` removes at the front is no longer than the value |
| Sanitizer.Trail | app.py:39 | the whitespace run `strip()` removes at the back is no longer than the value |
| Sanitizer.LeadShape | app.py:39 | the front run is all whitespace and stops at a visible character |
| Sanitizer.TrailShape | app.py:39 | the back run is all whitespace and stops at a visible character |
| Sanitizer.Strip | app.py:39 | `strip()` leaves no whitespace at either end |
| Sanitizer.StripSlice | app.py:39 | `strip()` keeps one contiguous slice of its input and removes only whitespace before and after it |
| Sanitizer.StripFixpoint | app.py:39 | `strip()` changes a value exactly when it has whitespace at an end |
| Sanitizer.StripBlank | app.py:39 | `strip()` yields "" exactly for all-whitespace values |
| Sanitizer.StripConcat | app.py:39 | stripping `x + y`, where `y` starts with a visible character, only trims the front of `x` and the back of `y` |
| ResumeForm.Get | app.py:97-99 | `form.get(key, "")` yields the first value posted under the key, and "" when the key is absent or has no value |
| ResumeForm.GetList | app.py:72-74 | `form.getlist(key)` yields every value posted under the key in submission order, and [] for an absent key |
| ResumeForm.GetFirstOfList | app.py:72-99 | `get` answers with the first value `getlist` returns, and with "" when there is none |
| ResumeForm.ZipEducation | app.py:65-76 | the number of education entries is the length of the shortest of the three lists; entry i holds the cleaned i-th degree, institution and year |
| ResumeForm.ZipExperience | app.py:79-94 | the number of experience entries is the length of the shortest of the five lists; entry i holds the cleaned i-th value of each |
| ResumeForm.EducationEntries | app.py:65-76 | the education entries of a form are as many as the shortest of the `degree[]`, `institution[]`, `year_of_passing[]` lists, entry i built from the cleaned i-th value posted under each |
| ResumeForm.ExperienceEntries | app.py:79-94 | the experience entries of a form are as many as the shortest of the five `job_title[]` ... `experience_desc[]` lists, entry i built from the cleaned i-th value posted under each |
| ResumeForm.ZipEducationSnoc | app.py:65-76 | posting one more complete education row appends exactly its cleaned entry after the existing ones |
| Generate.GenerateResume | app.py:97-132 | the request is rejected with the required-field message exactly when the cleaned name, email or phone is empty; otherwise it fails with the error message exactly when conversion fails; a download carries the template values of the form and the path `os.path.join("output", f)`, under the host's path rules, of the file name `f` derived from the cleaned name, so it has non-empty required fields, only clean values, the zipped entries and a path without spaces ending in `_resume.pdf` |
| Generate.RejectedIffBlank | app.py:97-103 | a required field is missing exactly when nothing but whitespace is left of it after tag removal; an absent field counts as missing |
| Generate.TemplateValues | app.py:106-119 | every value handed to the template, including each education and experience entry, has no tag and no whitespace at either end |
| Generate.ReplaceSpaces | app.py:122 | `replace(' ', '_')` keeps the length, turns each space into '_' and keeps every other character, so no space is left |
| Generate.FileName | app.py:122 | the file name is the name with spaces replaced, followed by `_resume.pdf`; it has no space and is 11 characters longer than the name |
| Generate.FileNameSameIff | app.py:122 | two names share a file name exactly when they have the same length and agree once spaces are written as '_' |
| Generate.OutputPath | app.py:123 | `os.path.join("output", f)` under POSIX or Windows rules ends with `f` and contains a space exactly when `f` does; it is `f` itself exactly when `f` has a root (or, on Windows, a drive), and otherwise `output` and the platform's separator followed by `f` |
| Generate.DownloadPathShape | app.py:122-123 | the output path of any name has no space and ends in `_resume.pdf` |

## Left out

- Flask routing, `render_template`, `flash`, `redirect` and `send_file` (app.py:55-57, 106-119, 132-137) are framework I/O. The rendered template is represented by the `Resume` value passed to it, a flash plus redirect by `Rejected`/`Failed` carrying the message, and `send_file` by `Download` carrying the path.
- The wkhtmltopdf/pdfkit conversion (app.py:13-19, 125) is a foreign process. Whether it, and anything else after the required-field check, succeeds is the `converted` parameter of `Generate.GenerateResume`. Any exception there leads to the same error response (app.py:134-137).
- `delete_file_later` and its `threading.Timer` (app.py:42-51, 128) are timer-based concurrency with filesystem side effects. The same goes for the resulting race between requests that share a file. `Generate.FileNameSameIff` says which names give the same file name. On Windows, names that differ only in letter case or in the separator used (`/` or a backslash), or that reach one file through `..`, also share a file. How the file system resolves paths is not modelled.
- Logging, `.env` loading, creation of the output directory and the secret key (app.py:1-31, 130) are environment and I/O.
- Generate.GenerateResume: takes a form that has already been parsed. Werkzeug parses the request body lazily, at the first access to `request.form` (app.py:72), inside the `try` (app.py:63). A body it refuses, for example one over the configured size limit, raises there and gives the error response (app.py:134-137) whatever the fields hold, before the required-field check runs. The model does not represent that failure.
- Sanitizer.Sanitize: takes a `string`. Python's `None`, which `not text` also maps to "", cannot reach the function: `form.get(key, "")` and `getlist` always yield strings.
- Generate.OutputPath: models both `posixpath.join` and `ntpath.join` for the one case app.py uses, a relative directory with no drive joined to one file name. On Windows a file name with a root (a backslash or '/') or a drive (second character ':', UNC prefixes included) replaces the directory. The converter app.py configures is a Windows executable (app.py:17-19), so downloads are only produced on Windows; the POSIX rules are kept as the second `Platform`. Case-folding of drive letters does not arise, because the directory has no drive.
- Sanitizer.IsSpace: Python's `str.isspace` set is written out by code point. Python derives it from the Unicode database; no other Unicode behaviour is modelled.
- ResumeForm.ZipExperience: there is no counterpart of `ResumeForm.ZipEducationSnoc` for the five-list zip. Its length and pointwise contract state the same facts entry by entry.

=== FILE: form.dfy ===
/** The repeated-field part of the resume form (app.py, `generate_resume`):
    education and experience entries arrive as parallel lists posted under
    `degree[]`, `institution[]`, ... and are paired up position by position
    with Python's `zip`, each value cleaned by `sanitize_input`. */
module ResumeForm {
  import opened Sanitizer

  /** A submitted form: each key maps to the values posted under it, in
      submission order. A key that was not posted is simply absent. */
  type Form = map<string, seq<string>>

  /** `request.form.getlist(key)`: every value posted under `key`, [] if none. */
  function GetList(form: Form, key: string): (values: seq<string>)
    ensures key !in form ==> values == []
    ensures key in form ==> values == form[key]
  {
    if key in form then form[key] else []
  }

  /** `request.form.get(key, "")`: the first value posted under `key`, "" if none. */
  function Get(form: Form, key: string): (value: string)
    ensures key !in form ==> value == ""
    ensures key in form && |form[key]| == 0 ==> value == ""
    ensures key in form && |form[key]| > 0 ==> value == form[key][0]
  {
    if key in form && |form[key]| > 0 then form[key][0] else ""
  }

  /** `get` answers with the first of the values `getlist` returns, and
      with the default "" exactly when there is none or the first is "". */
  lemma GetFirstOfList(form: Form, key: string)
    ensures GetList(form, key) == [] ==> Get(form, key) == ""
    ensures GetList(form, key) != [] ==> Get(form, key) == GetList(form, key)[0]
  {
  }

  function Min(a: nat, b: nat): nat
  {
    if a <= b then a else b
  }

  datatype Education = Education(degree: string, institution: string, yearOfPassing: string)

  datatype Experience = Experience(
    jobTitle: string,
    company: string,
    expStart: string,
    expEnd: string,
    experienceDesc: string)

  /** `zip(degrees, institutions, years)` with each value cleaned: one entry
      per position that all three lists have, in submission order. */
  function ZipEducation(degrees: seq<string>, institutions: seq<string>, years: seq<string>)
    : (r: seq<Education>)
    ensures |r| == Min(|degrees|, Min(|institutions|, |years|))
    ensures forall i :: 0 <= i < |r| ==>
      r[i] == Education(Sanitize(degrees[i]), Sanitize(institutions[i]), Sanitize(years[i]))
    decreases |degrees|
  {
    if |degrees| == 0 || |institutions| == 0 || |years| == 0 then []
    else
      [Education(Sanitize(degrees[0]), Sanitize(institutions[0]), Sanitize(years[0]))]
      + ZipEducation(degrees[1..], institutions[1..], years[1..])
  }

  /** The five-way `zip` of the experience lists, each value cleaned. */
  function ZipExperience(
    titles: seq<string>, companies: seq<string>, starts: seq<string>,
    ends: seq<string>, descs: seq<string>)
    : (r: seq<Experience>)
    ensures |r| == Min(|titles|, Min(|companies|, Min(|starts|, Min(|ends|, |descs|))))
    ensures forall i :: 0 <= i < |r| ==>
      r[i] == Experience(Sanitize(titles[i]), Sanitize(companies[i]), Sanitize(starts[i]),
                         Sanitize(ends[i]), Sanitize(descs[i]))
    decreases |titles|
  {
    if |titles| == 0 || |companies| == 0 || |starts| == 0 || |ends| == 0 || |descs| == 0 then []
    else
      [Experience(Sanitize(titles[0]), Sanitize(companies[0]), Sanitize(starts[0]),
                  Sanitize(ends[0]), Sanitize(descs[0]))]
      + ZipExperience(titles[1..], companies[1..], starts[1..], ends[1..], descs[1..])
  }

  /** The education entries of a submitted form. */
  function EducationEntries(form: Form): (entries: seq<Education>)
    ensures var degrees, institutions, years :=
      GetList(form, "degree[]"), GetList(form, "institution[]"), GetList(form, "year_of_passing[]");
      && |entries| == Min(|degrees|, Min(|institutions|, |years|))
      && forall i :: 0 <= i < |entries| ==>
        entries[i] == Education(Sanitize(degrees[i]), Sanitize(institutions[i]), Sanitize(years[i]))
  {
    ZipEducation(GetList(form, "degree[]"), GetList(form, "institution[]"),
                 GetList(form, "year_of_passing[]"))
  }

  /** The experience entries of a submitted form. */
  function ExperienceEntries(form: Form): (entries: seq<Experience>)
    ensures var titles, companies, starts, ends, descs :=
      GetList(form, "job_title[]"), GetList(form, "company[]"), GetList(form, "exp_start[]"),
      GetList(form, "exp_end[]"), GetList(form, "experience_desc[]");
      && |entries| == Min(|titles|, Min(|companies|, Min(|starts|, Min(|ends|, |descs|))))
      && forall i :: 0 <= i < |entries| ==>
        entries[i] == Experience(Sanitize(titles[i]), Sanitize(companies[i]), Sanitize(starts[i]),
                                 Sanitize(ends[i]), Sanitize(descs[i]))
  {
    ZipExperience(GetList(form, "job_title[]"), GetList(form, "company[]"),
                  GetList(form, "exp_start[]"), GetList(form, "exp_end[]"),
                  GetList(form, "experience_desc[]"))
  }

  /** Posting one more complete row appends exactly one entry, built from
      that row, after the entries already there. */
  lemma ZipEducationSnoc(
    degrees: seq<string>, institutions: seq<string>, years: seq<string>,
    d: string, n: string, y: string)
    requires |degrees| == |institutions| == |years|
    ensures ZipEducation(degrees + [d], institutions + [n], years + [y])
      == ZipEducation(degrees, institutions, years) + [Education(Sanitize(d), Sanitize(n), Sanitize(y))]
  {
    var longer := ZipEducation(degrees + [d], institutions + [n], years + [y]);
    var shorter := ZipEducation(degrees, institutions, years);
    forall i | 0 <= i < |shorter|
      ensures longer[i] == shorter[i]
    {
      assert (degrees + [d])[i] == degrees[i];
      assert (institutions + [n])[i] == institutions[i];
      assert (years + [y])[i] == years[i];
    }
    assert longer[|shorter|] == Education(Sanitize(d), Sanitize(n), Sanitize(y)) by {
      assert (degrees + [d])[|degrees|] == d;
      assert (institutions + [n])[|degrees|] == n;
      assert (years + [y])[|degrees|] == y;
    }
  }
}

=== FILE: generate.dfy ===
/** The `/generate` request handler of app.py (`generate_resume`) with its
    framework and process calls taken out: the form is cleaned, the three
    required fields are checked, and the output file name is derived from
    the cleaned name. Whether the HTML-to-PDF conversion succeeds is decided
    by an external program, so it is a parameter here. */
module Generate {
  import opened Sanitizer
  import opened ResumeForm

  /** Flash message of the required-field check. */
  const RequiredMessage: string := "\U{26A0}\U{FE0F} Name, Email, and Phone are required!"

  /** Flash message when anything after the check raises. */
  const FailureMessage: string := "Error generating resume. Please try again."

  /** Directory the PDF files are written to. */
  const OutputDir: string := "output"

  /** Appended to the name to form the PDF file name. */
  const ResumeSuffix: string := "_resume.pdf"

  /** The values handed to the resume template. */
  datatype Resume = Resume(
    name: string,
    email: string,
    phone: string,
    location: string,
    linkedin: string,
    skills: string,
    projects: string,
    certifications: string,
    otherDetails: string,
    education: seq<Education>,
    experience: seq<Experience>)

  /** What the handler answers with. */
  datatype Response =
    | Rejected(message: string)           // redirect to "/" after the required-field check
    | Failed(message: string)             // redirect to "/" after a rendering or conversion error
    | Download(path: string, resume: Resume)  // the PDF at `path`, sent as an attachment

  /** A value that has been through `sanitize_input`'s guarantees. */
  predicate Clean(s: string)
  {
    NoTag(s) && NoEdgeSpace(s)
  }

  predicate CleanEducation(e: Education)
  {
    Clean(e.degree) && Clean(e.institution) && Clean(e.yearOfPassing)
  }

  predicate CleanExperience(e: Experience)
  {
    && Clean(e.jobTitle) && Clean(e.company) && Clean(e.expStart) && Clean(e.expEnd)
    && Clean(e.experienceDesc)
  }

  predicate CleanResume(r: Resume)
  {
    && Clean(r.name) && Clean(r.email) && Clean(r.phone) && Clean(r.location)
    && Clean(r.linkedin) && Clean(r.skills) && Clean(r.projects)
    && Clean(r.certifications) && Clean(r.otherDetails)
    && (forall i :: 0 <= i < |r.education| ==> CleanEducation(r.education[i]))
    && (forall i :: 0 <= i < |r.experience| ==> CleanExperience(r.experience[i]))
  }

  /** What `str.replace(' ', '_')` does to one character. */
  function Underscore(c: char): char
  {
    if c == ' ' then '_' else c
  }

  /** `name.replace(' ', '_')`. */
  function ReplaceSpaces(s: string): (r: string)
    ensures |r| == |s|
    ensures forall i :: 0 <= i < |s| ==> r[i] == Underscore(s[i])
    ensures ' ' !in r
    decreases |s|
  {
    if |s| == 0 then ""
    else [Underscore(s[0])] + ReplaceSpaces(s[1..])
  }

  /** `f"{name.replace(' ', '_')}_resume.pdf"`. */
  function FileName(name: string): (r: string)
    ensures |r| == |name| + 11
    ensures ' ' !in r
    ensures r[|name|..] == ResumeSuffix
    ensures forall i :: 0 <= i < |name| ==> r[i] == Underscore(name[i])
  {
    var r := ReplaceSpaces(name) + ResumeSuffix;
    assert r[|name|..] == ResumeSuffix;
    r
  }

  /** Two names get the same file exactly when they agree up to writing
      '_' for ' ': "Ada Lovelace" and "Ada_Lovelace" share one output path. */
  lemma FileNameSameIff(a: string, b: string)
    ensures FileName(a) == FileName(b)
      <==> |a| == |b| && forall i :: 0 <= i < |a| ==> Underscore(a[i]) == Underscore(b[i])
  {
    if FileName(a) == FileName(b) {
      assert |a| == |b|;
      forall i | 0 <= i < |a|
        ensures Underscore(a[i]) == Underscore(b[i])
      {
        assert FileName(a)[i] == FileName(b)[i];
      }
    }
    if |a| == |b| && forall i :: 0 <= i < |a| ==> Underscore(a[i]) == Underscore(b[i]) {
      assert ReplaceSpaces(a) == ReplaceSpaces(b);
    }
  }

  /** A path without spaces that ends in the resume suffix. */
  predicate PdfPath(p: string)
  {
    && ' ' !in p
    && |p| >= |ResumeSuffix|
    && p[|p| - |ResumeSuffix|..] == ResumeSuffix
  }

  /** The path rules `os.path.join` follows: `posixpath` or `ntpath`. */
  datatype Platform = Posix | Windows

  /** The separator `os.path.join` inserts. */
  function Separator(platform: Platform): char
  {
    if platform == Windows then '\\' else '/'
  }

  /** A file name that discards the directory it is joined to: one with a
      root (POSIX '/'; Windows a backslash or '/'), or on Windows one with a drive,
      whose second character is ':'. */
  predicate Rooted(platform: Platform, filename: string)
  {
    match platform
    case Posix => |filename| > 0 && filename[0] == '/'
    case Windows =>
      || (|filename| > 0 && (filename[0] == '\\' || filename[0] == '/'))
      || (|filename| > 1 && filename[1] == ':')
  }

  /** `os.path.join("output", filename)` under the platform's path rules. */
  function OutputPath(platform: Platform, filename: string): (p: string)
    ensures |p| >= |filename| && p[|p| - |filename|..] == filename
    ensures ' ' in p <==> ' ' in filename
    ensures p == filename <==> Rooted(platform, filename)
    ensures p != filename ==>
      && |p| == |OutputDir| + 1 + |filename|
      && p[..|OutputDir| + 1] == OutputDir + [Separator(platform)]
  {
    if Rooted(platform, filename) then filename
    else
      var p := OutputDir + [Separator(platform)] + filename;
      assert p[|p| - |filename|..] == filename;
      assert p[..|OutputDir| + 1] == OutputDir + [Separator(platform)];
      assert forall c :: c in p <==> c in OutputDir + [Separator(platform)] || c in filename;
      p
  }

  /** `generate_resume`, given the submitted form, the path rules of the
      host, and whether the external HTML-to-PDF conversion (and the rest of
      the work after the check) succeeds. */
  function GenerateResume(form: Form, platform: Platform, converted: bool): (r: Response)
    ensures r.Rejected? <==>
      || Sanitize(Get(form, "name")) == ""
      || Sanitize(Get(form, "email")) == ""
      || Sanitize(Get(form, "phone")) == ""
    ensures r.Rejected? ==> r.message == RequiredMessage
    ensures r.Failed? <==> !r.Rejected? && !converted
    ensures r.Failed? ==> r.message == FailureMessage
    ensures r.Download? ==>
      && r.resume == TemplateValues(form)
      && r.path == OutputPath(platform, FileName(Sanitize(Get(form, "name"))))
    ensures r.Download? ==>
      && r.resume.name != "" && r.resume.email != "" && r.resume.phone != ""
      && CleanResume(r.resume)
      && r.resume.education == EducationEntries(form)
      && r.resume.experience == ExperienceEntries(form)
      && PdfPath(r.path)
  {
    var resume := TemplateValues(form);
    if resume.name == "" || resume.email == "" || resume.phone == "" then
      Rejected(RequiredMessage)
    else if !converted then
      Failed(FailureMessage)
    else
      DownloadPathShape(platform, resume.name);
      Download(OutputPath(platform, FileName(resume.name)), resume)
  }

  /** Every field of the form, cleaned, as `generate_resume` hands it to the
      template. */
  function TemplateValues(form: Form): (r: Resume)
    ensures CleanResume(r)
  {
    var education := EducationEntries(form);
    var experience := ExperienceEntries(form);
    assert forall i :: 0 <= i < |education| ==> CleanEducation(education[i]);
    assert forall i :: 0 <= i < |experience| ==> CleanExperience(experience[i]);
    Resume(
      Sanitize(Get(form, "name")),
      Sanitize(Get(form, "email")),
      Sanitize(Get(form, "phone")),
      Sanitize(Get(form, "location")),
      Sanitize(Get(form, "linkedin")),
      Sanitize(Get(form, "skills")),
      Sanitize(Get(form, "projects")),
      Sanitize(Get(form, "certifications")),
      Sanitize(Get(form, "other_details")),
      education,
      experience)
  }

  /** The download path of a name: no space, and the suffix at the end. */
  lemma DownloadPathShape(platform: Platform, name: string)
    ensures PdfPath(OutputPath(platform, FileName(name)))
  {
    var f := FileName(name);
    EndsWithFile(OutputPath(platform, f), f);
  }

  lemma EndsWithFile(p: string, f: string)
    requires ' ' !in p
    requires |f| >= |ResumeSuffix| && f[|f| - |ResumeSuffix|..] == ResumeSuffix
    requires |p| >= |f| && p[|p| - |f|..] == f
    ensures PdfPath(p)
  {
    assert p[|p| - |ResumeSuffix|..] == p[|p| - |f|..][|f| - |ResumeSuffix|..];
  }

  /** A required field is missing exactly when nothing but whitespace is
      left of it once its tags are removed (absent and empty included). */
  lemma RejectedIffBlank(form: Form, platform: Platform, converted: bool)
    ensures GenerateResume(form, platform, converted).Rejected? <==>
      || AllSpace(StripTags(Get(form, "name")))
      || AllSpace(StripTags(Get(form, "email")))
      || AllSpace(StripTags(Get(form, "phone")))
  {
    SanitizeBlankIff(Get(form, "name"));
    SanitizeBlankIff(Get(form, "email"));
    SanitizeBlankIff(Get(form, "phone"));
  }
}

=== FILE: sanitizer.dfy ===
/** Model of `sanitize_input` (app.py): every user-supplied field is passed
    through `re.sub(r"<[^>]*?>", "", text).strip()`, and an empty value is
    returned as "" unchanged.

    The regular-expression substitution is modelled as the left-to-right scan
    Python's engine performs: at a '<' that has a '>' somewhere after it, the
    match runs to the FIRST such '>' (the class `[^>]` cannot step over a
    '>', so the lazy `*?` and a greedy `*` agree) and is dropped; at any other
    character nothing matches, the character is kept and the scan moves on.
    The class does match '<' and line breaks, so "<a<b>" is one match. */
module Sanitizer {

  /** Python's `str.isspace` for one character: the characters `str.strip()`
      removes when called without arguments. */
  predicate IsSpace(c: char)
  {
    var n := c as int;
    || 0x09 <= n <= 0x0D
    || 0x1C <= n <= 0x20
    || n == 0x85
    || n == 0xA0
    || n == 0x1680
    || 0x2000 <= n <= 0x200A
    || n == 0x2028
    || n == 0x2029
    || n == 0x202F
    || n == 0x205F
    || n == 0x3000
  }

  /** Every character of `s` is whitespace (vacuously true of ""). */
  predicate AllSpace(s: string)
  {
    forall i :: 0 <= i < |s| ==> IsSpace(s[i])
  }

  /** No '<' is followed, anywhere later, by a '>': the tag pattern finds
      nothing left to match. */
  predicate NoTag(s: string)
  {
    forall i, j :: 0 <= i < j < |s| && s[i] == '<' ==> s[j] != '>'
  }

  /** Neither the first nor the last character is whitespace. */
  predicate NoEdgeSpace(s: string)
  {
    |s| == 0 || (!IsSpace(s[0]) && !IsSpace(s[|s| - 1]))
  }

  /** `a` can be obtained from `b` by deleting characters. */
  predicate IsSubsequence(a: string, b: string)
    decreases |b|
  {
    || |a| == 0
    || (&& |b| > 0
        && (|| (a[0] == b[0] && IsSubsequence(a[1..], b[1..]))
            || IsSubsequence(a, b[1..])))
  }

  // ---------------------------------------------------------------------------
  // Subsequences

  lemma {:induction false} SubsequenceRefl(a: string)
    ensures IsSubsequence(a, a)
    decreases |a|
  {
    if |a| > 0 {
      SubsequenceRefl(a[1..]);
    }
  }

  lemma {:induction false} SubsequenceOfSuffix(a: string, b: string, k: nat)
    requires k <= |b|
    requires IsSubsequence(a, b[k..])
    ensures IsSubsequence(a, b)
    decreases k
  {
    if k > 0 {
      assert b[k..] == b[1..][k - 1..];
      SubsequenceOfSuffix(a, b[1..], k - 1);
    }
  }

  lemma {:induction false} SubsequenceAppend(a: string, b: string, c: string)
    requires IsSubsequence(a, b)
    ensures IsSubsequence(a, b + c)
    decreases |b|
  {
    if |a| > 0 {
      assert (b + c)[1..] == b[1..] + c;
      if a[0] == b[0] && IsSubsequence(a[1..], b[1..]) {
        SubsequenceAppend(a[1..], b[1..], c);
      } else {
        SubsequenceAppend(a, b[1..], c);
      }
    }
  }

  lemma {:induction false} SubsequenceTrans(a: string, b: string, c: string)
    requires IsSubsequence(a, b) && IsSubsequence(b, c)
    ensures IsSubsequence(a, c)
    decreases |c|
  {
    if |a| > 0 {
      if b[0] == c[0] && IsSubsequence(b[1..], c[1..]) {
        if a[0] == b[0] && IsSubsequence(a[1..], b[1..]) {
          SubsequenceTrans(a[1..], b[1..], c[1..]);
        } else {
          SubsequenceTrans(a, b[1..], c[1..]);
        }
      } else {
        SubsequenceTrans(a, b, c[1..]);
      }
    }
  }

  lemma SliceIsSubsequence(s: string, i: nat, j: nat)
    requires i <= j <= |s|
    ensures IsSubsequence(s[i..j], s)
  {
    assert s[i..j] + s[j..] == s[i..];
    SubsequenceRefl(s[i..j]);
    SubsequenceAppend(s[i..j], s[i..j], s[j..]);
    SubsequenceOfSuffix(s[i..j], s, i);
  }

  lemma {:induction false} SubsequenceLength(a: string, b: string)
    requires IsSubsequence(a, b)
    ensures |a| <= |b|
    decreases |b|
  {
    if |a| > 0 {
      if a[0] == b[0] && IsSubsequence(a[1..], b[1..]) {
        SubsequenceLength(a[1..], b[1..]);
      } else {
        SubsequenceLength(a, b[1..]);
      }
    }
  }

  /** A character missing from `b` is missing from every subsequence of `b`. */
  lemma {:induction false} SubsequenceOmits(a: string, b: string, c: char)
    requires IsSubsequence(a, b)
    ensures c !in b ==> c !in a
    decreases |b|
  {
    if |a| > 0 && c !in b {
      assert c !in b[1..];
      if a[0] == b[0] && IsSubsequence(a[1..], b[1..]) {
        SubsequenceOmits(a[1..], b[1..], c);
        assert a == [a[0]] + a[1..];
      } else {
        SubsequenceOmits(a, b[1..], c);
      }
    }
  }

  // ---------------------------------------------------------------------------
  // Tag removal: re.sub(r"<[^>]*?>", "", text)

  /** What follows the first '>' of `s`: where the scan resumes once a match
      that started just before `s` has been consumed. */
  function AfterClose(s: string): (r: string)
    requires '>' in s
    ensures |r| < |s|
    ensures r == s[|s| - |r|..]
    ensures s[|s| - |r| - 1] == '>'
    ensures '>' !in s[..|s| - |r| - 1]
    decreases |s|
  {
    if s[0] == '>' then s[1..]
    else
      assert '>' in s[1..] by {
        var k :| 0 <= k < |s| && s[k] == '>';
        assert s[1..][k - 1] == '>';
      }
      AfterClose(s[1..])
  }

  /** A '>' found inside `x` is found before anything appended to `x`. */
  lemma {:induction false} AfterCloseConcat(x: string, y: string)
    requires '>' in x
    ensures '>' in x + y
    ensures AfterClose(x + y) == AfterClose(x) + y
    decreases |x|
  {
    assert (x + y)[1..] == x[1..] + y;
    if x[0] != '>' {
      assert '>' in x[1..] by {
        var k :| 0 <= k < |x| && x[k] == '>';
        assert x[1..][k - 1] == '>';
      }
      AfterCloseConcat(x[1..], y);
    }
  }

  lemma NoTagCons(c: char, t: string)
    requires NoTag(t)
    requires c == '<' ==> '>' !in t
    ensures NoTag([c] + t)
  {
    var s := [c] + t;
    forall i, j | 0 <= i < j < |s| && s[i] == '<'
      ensures s[j] != '>'
    {
      assert s[j] == t[j - 1];
      if i > 0 {
        assert s[i] == t[i - 1];
      }
    }
  }

  /** The tag-removal pass, one scan position at a time. */
  function StripTags(s: string): (r: string)
    ensures |r| <= |s|
    decreases |s|
  {
    if |s| == 0 then ""
    else if s[0] == '<' && '>' in s[1..] then StripTags(AfterClose(s[1..]))
    else [s[0]] + StripTags(s[1..])
  }

  /** The pass only deletes: its output is the input with characters left out. */
  lemma {:induction false} StripTagsSubsequence(s: string)
    ensures IsSubsequence(StripTags(s), s)
    decreases |s|
  {
    if |s| == 0 {
    } else if s[0] == '<' && '>' in s[1..] {
      var rest := AfterClose(s[1..]);
      assert rest == s[|s| - |rest|..];
      StripTagsSubsequence(rest);
      SubsequenceOfSuffix(StripTags(rest), s, |s| - |rest|);
    } else {
      var t := StripTags(s[1..]);
      StripTagsSubsequence(s[1..]);
      assert ([s[0]] + t)[1..] == t;
    }
  }

  /** No tag survives the pass, not even one formed by joining the text on
      either side of a removed tag. */
  lemma {:induction false} StripTagsNoTag(s: string)
    ensures NoTag(StripTags(s))
    decreases |s|
  {
    if |s| == 0 {
    } else if s[0] == '<' && '>' in s[1..] {
      StripTagsNoTag(AfterClose(s[1..]));
    } else {
      var t := StripTags(s[1..]);
      StripTagsNoTag(s[1..]);
      StripTagsSubsequence(s[1..]);
      SubsequenceOmits(t, s[1..], '>');
      NoTagCons(s[0], t);
    }
  }

  lemma NoTagSuffix(s: string)
    requires |s| > 0 && NoTag(s)
    ensures NoTag(s[1..])
    ensures s[0] == '<' ==> '>' !in s[1..]
  {
    forall i, j | 0 <= i < j < |s| - 1 && s[1..][i] == '<'
      ensures s[1..][j] != '>'
    {
      assert s[i + 1] == '<';
    }
  }

  lemma NoTagSlice(s: string, a: nat, b: nat)
    requires a <= b <= |s| && NoTag(s)
    ensures NoTag(s[a..b])
  {
    var t := s[a..b];
    forall i, j | 0 <= i < j < |t| && t[i] == '<'
      ensures t[j] != '>'
    {
      assert t[i] == s[a + i] && t[j] == s[a + j];
    }
  }

  /** The pass changes its input exactly when a tag is present. */
  lemma {:induction false} StripTagsFixpoint(s: string)
    ensures StripTags(s) == s <==> NoTag(s)
    decreases |s|
  {
    StripTagsNoTag(s);
    if |s| > 0 && NoTag(s) {
      NoTagSuffix(s);
      StripTagsFixpoint(s[1..]);
      assert [s[0]] + s[1..] == s;
    }
  }

  /** Text after which no '>' follows passes through unchanged, and does not
      disturb how what comes before it is cleaned. */
  lemma {:induction false} StripTagsKeepsTail(s: string, i: nat)
    requires i <= |s|
    requires '>' !in s[i..]
    ensures StripTags(s) == StripTags(s[..i]) + s[i..]
    decreases |s|
  {
    if i == 0 {
      NoCloseUnchanged(s);
    } else if s[0] == '<' && '>' in s[1..] {
      var a := TagEndsBefore(s, i);
      StripTagsKeepsTail(a + s[i..], |a|);
    } else {
      assert s[1..][i - 1..] == s[i..];
      StripTagsKeepsTail(s[1..], i - 1);
      KeptHeadStep(s, i);
    }
  }

  /** The inductive step of `StripTagsKeepsTail` at a character that starts
      no tag: the claim for `s` follows from the claim for `s[1..]`. */
  lemma KeptHeadStep(s: string, i: nat)
    requires 0 < i <= |s|
    requires !(s[0] == '<' && '>' in s[1..])
    requires StripTags(s[1..]) == StripTags(s[1..][..i - 1]) + s[1..][i - 1..]
    ensures StripTags(s) == StripTags(s[..i]) + s[i..]
  {
    assert StripTags(s) == [s[0]] + StripTags(s[1..]);
    VisibleHeadBefore(s, i);
    ConsAssoc(s[0], StripTags(s[1..][..i - 1]), s[i..]);
  }

  lemma ConsAssoc(c: char, x: string, y: string)
    ensures [c] + (x + y) == ([c] + x) + y
  {
  }

  lemma NoCloseUnchanged(s: string)
    requires '>' !in s[0..]
    ensures StripTags(s) == StripTags(s[..0]) + s[0..]
  {
    assert s[0..] == s;
    StripTagsFixpoint(s);
    assert s[..0] == "";
  }

  /** A tag opening at the front of `s` closes before position `i` when no
      '>' follows `i`; cleaning resumes at the same place in `s` and in its
      prefix `s[..i]`. */
  lemma TagEndsBefore(s: string, i: nat) returns (a: string)
    requires 0 < i <= |s|
    requires '>' !in s[i..]
    requires s[0] == '<' && '>' in s[1..]
    ensures |a| < i
    ensures StripTags(s) == StripTags(a + s[i..])
    ensures StripTags(s[..i]) == StripTags(a)
    ensures (a + s[i..])[|a|..] == s[i..]
    ensures (a + s[i..])[..|a|] == a
  {
    CloseWithin(s, i);
    AfterCloseConcat(s[1..i], s[i..]);
    a := AfterClose(s[1..i]);
    assert s[..i][1..] == s[1..i];
  }

  lemma CloseWithin(s: string, i: nat)
    requires 0 < i <= |s|
    requires '>' !in s[i..]
    requires '>' in s[1..]
    ensures s[1..] == s[1..i] + s[i..]
    ensures '>' in s[1..i]
  {
    assert s[1..] == s[1..i] + s[i..];
    var k :| 0 <= k < |s| - 1 && s[1..][k] == '>';
    assert s[1..i][k] == '>';
  }

  /** When the front of `s` starts no tag, neither does the front of `s[..i]`. */
  lemma VisibleHeadBefore(s: string, i: nat)
    requires 0 < i <= |s|
    requires !(s[0] == '<' && '>' in s[1..])
    ensures StripTags(s[..i]) == [s[0]] + StripTags(s[1..][..i - 1])
    ensures s[1..][i - 1..] == s[i..]
  {
    PrefixHead(s, i);
    assert StripTags(s[..i]) == [s[..i][0]] + StripTags(s[..i][1..]);
  }

  lemma PrefixHead(s: string, i: nat)
    requires 0 < i <= |s|
    requires !(s[0] == '<' && '>' in s[1..])
    ensures s[..i][0] == s[0]
    ensures s[..i][1..] == s[1..][..i - 1]
    ensures !(s[..i][0] == '<' && '>' in s[..i][1..])
  {
    var p := s[..i];
    assert p[1..] == s[1..][..i - 1];
    assert s[1..] == s[1..i] + s[i..];
    if s[0] == '<' {
      SubsequenceRefl(s[1..i]);
      SubsequenceAppend(s[1..i], s[1..i], s[i..]);
      SubsequenceOmits(s[1..i], s[1..], '>');
    }
  }

  /** Scanning on from inside a tag body without '>' resumes right after
      the '>' that closes it. */
  lemma AfterCloseSkips(t: string, y: string)
    requires '>' !in t
    ensures '>' in t + ['>'] + y
    ensures AfterClose(t + ['>'] + y) == y
  {
    var s := t + ['>'] + y;
    assert s[|t|] == '>';
    assert s[|t| + 1..] == y;
  }

  /** Text without '<' is copied as it is, whatever follows it. */
  lemma {:induction false} StripTagsPlainPrefix(x: string, w: string)
    requires '<' !in x
    ensures StripTags(x + w) == x + StripTags(w)
    decreases |x|
  {
    if |x| == 0 {
      assert x + w == w;
    } else {
      assert (x + w)[0] == x[0] && (x + w)[1..] == x[1..] + w;
      StripTagsPlainPrefix(x[1..], w);
      assert x + StripTags(w) == [x[0]] + (x[1..] + StripTags(w));
    }
  }

  /** The match is lazy: a tag ends at its own first '>', so text between
      two tags is kept ("a<b>c<d>e" becomes "ace"). */
  lemma StripTagsDropsTag(x: string, t: string, y: string)
    requires '<' !in x && '>' !in t
    ensures StripTags(x + ['<'] + t + ['>'] + y) == x + StripTags(y)
  {
    var w := ['<'] + (t + ['>'] + y);
    assert x + ['<'] + t + ['>'] + y == x + w;
    StripTagsPlainPrefix(x, w);
    AfterCloseSkips(t, y);
    assert w[0] == '<' && w[1..] == t + ['>'] + y;
  }

  // ---------------------------------------------------------------------------
  // Whitespace trimming: str.strip()

  /** Length of the run of whitespace that `s` starts with. */
  function Lead(s: string): (k: nat)
    ensures k <= |s|
    decreases |s|
  {
    if |s| > 0 && IsSpace(s[0]) then 1 + Lead(s[1..]) else 0
  }

  /** Length of the run of whitespace that `s` ends with. */
  function Trail(s: string): (k: nat)
    ensures k <= |s|
    decreases |s|
  {
    if |s| > 0 && IsSpace(s[|s| - 1]) then 1 + Trail(s[..|s| - 1]) else 0
  }

  /** The leading run is all whitespace and stops at a visible character. */
  lemma {:induction false} LeadShape(s: string)
    ensures AllSpace(s[..Lead(s)])
    ensures Lead(s) < |s| ==> !IsSpace(s[Lead(s)])
    decreases |s|
  {
    if |s| > 0 && IsSpace(s[0]) {
      LeadShape(s[1..]);
      forall i | 0 <= i < Lead(s)
        ensures IsSpace(s[..Lead(s)][i])
      {
        if i > 0 {
          assert s[..Lead(s)][i] == s[1..][..Lead(s[1..])][i - 1];
        }
      }
      assert Lead(s) < |s| ==> s[Lead(s)] == s[1..][Lead(s[1..])];
    }
  }

  /** The trailing run is all whitespace and stops at a visible character. */
  lemma {:induction false} TrailShape(s: string)
    ensures AllSpace(s[|s| - Trail(s)..])
    ensures Trail(s) < |s| ==> !IsSpace(s[|s| - Trail(s) - 1])
    decreases |s|
  {
    if |s| > 0 && IsSpace(s[|s| - 1]) {
      var p := s[..|s| - 1];
      TrailShape(p);
      forall i | |s| - Trail(s) <= i < |s|
        ensures IsSpace(s[i])
      {
        if i < |s| - 1 {
          assert s[i] == p[|p| - Trail(p)..][i - (|p| - Trail(p))];
        }
      }
      assert Trail(s) < |s| ==> s[|s| - Trail(s) - 1] == p[|p| - Trail(p) - 1];
    }
  }

  /** `str.strip()`: drop the leading whitespace run, then the trailing one
      of what is left. */
  function Strip(s: string): (r: string)
    ensures NoEdgeSpace(r)
  {
    var l := s[Lead(s)..];
    LeadShape(s);
    TrailShape(l);
    l[..|l| - Trail(l)]
  }

  /** Strip keeps one slice of its input and removes only whitespace around it. */
  lemma StripSlice(s: string)
    ensures Lead(s) + |Strip(s)| <= |s|
    ensures Strip(s) == s[Lead(s)..Lead(s) + |Strip(s)|]
    ensures AllSpace(s[..Lead(s)])
    ensures AllSpace(s[Lead(s) + |Strip(s)|..])
  {
    var l := s[Lead(s)..];
    LeadShape(s);
    TrailShape(l);
    assert l[|l| - Trail(l)..] == s[Lead(s) + |Strip(s)|..];
  }

  /** Strip changes exactly the values with whitespace at an end. */
  lemma StripFixpoint(s: string)
    ensures Strip(s) == s <==> NoEdgeSpace(s)
  {
    if NoEdgeSpace(s) && |s| > 0 {
      assert Lead(s) == 0;
      assert Trail(s) == 0;
    }
  }

  /** Strip yields "" exactly for all-whitespace values. */
  lemma StripBlank(s: string)
    ensures Strip(s) == "" <==> AllSpace(s)
  {
    var l := s[Lead(s)..];
    LeadShape(s);
    TrailShape(l);
    if Strip(s) == "" {
      assert l[|l| - Trail(l)..] == l;
      assert Lead(s) == |s|;
      forall i | 0 <= i < |s|
        ensures IsSpace(s[i])
      {
        assert s[i] == s[..Lead(s)][i];
      }
    }
  }

  /** A leading whitespace run ends at the first visible character. */
  lemma {:induction false} LeadConcat(x: string, y: string)
    requires |y| > 0 && !IsSpace(y[0])
    ensures Lead(x + y) == Lead(x)
    decreases |x|
  {
    if |x| == 0 {
      assert x + y == y;
    } else {
      assert (x + y)[0] == x[0];
      assert (x + y)[1..] == x[1..] + y;
      LeadConcat(x[1..], y);
    }
  }

  /** A trailing whitespace run cannot reach past a visible character. */
  lemma {:induction false} TrailConcat(x: string, y: string)
    requires |y| > 0 && !IsSpace(y[0])
    ensures Trail(x + y) == Trail(y) < |y|
    decreases |y|
  {
    var s := x + y;
    assert s[|s| - 1] == y[|y| - 1];
    if IsSpace(y[|y| - 1]) {
      assert s[..|s| - 1] == x + y[..|y| - 1];
      TrailConcat(x, y[..|y| - 1]);
    }
  }

  /** Stripping `x + y`, where `y` starts with a visible character, only
      trims the front of `x` and the back of `y`. */
  lemma StripConcat(x: string, y: string)
    requires |y| > 0 && !IsSpace(y[0])
    ensures Strip(x + y) == x[Lead(x)..] + y[..|y| - Trail(y)]
  {
    var a := x[Lead(x)..];
    LeadConcat(x, y);
    assert (x + y)[Lead(x)..] == a + y;
    TrailConcat(a, y);
    assert (a + y)[..|a| + |y| - Trail(y)] == a + y[..|y| - Trail(y)];
  }

  // ---------------------------------------------------------------------------
  // sanitize_input

  /** The cleaned field: empty for empty input, and otherwise free of tags
      and of whitespace at either end. */
  function Sanitize(text: string): (r: string)
    ensures |text| == 0 ==> r == ""
    ensures NoTag(r)
    ensures NoEdgeSpace(r)
  {
    if |text| == 0 then ""
    else
      var t := StripTags(text);
      StripTagsNoTag(text);
      StripSlice(t);
      NoTagSlice(t, Lead(t), Lead(t) + |Strip(t)|);
      Strip(t)
  }

  /** The cleaned field is the input with characters left out, so it is
      never longer than the input. */
  lemma SanitizeSubsequence(text: string)
    ensures IsSubsequence(Sanitize(text), text)
    ensures |Sanitize(text)| <= |text|
  {
    if |text| > 0 {
      var t := StripTags(text);
      StripTagsSubsequence(text);
      StripSlice(t);
      SliceOfSubsequence(text, t, Lead(t), Lead(t) + |Strip(t)|);
    }
  }

  lemma SliceOfSubsequence(text: string, t: string, i: nat, j: nat)
    requires IsSubsequence(t, text)
    requires i <= j <= |t|
    ensures IsSubsequence(t[i..j], text) && j - i <= |text|
  {
    SliceIsSubsequence(t, i, j);
    SubsequenceTrans(t[i..j], t, text);
    SubsequenceLength(t[i..j], text);
  }

  /** Cleaning an already clean value changes nothing. */
  lemma SanitizeIdempotent(text: string)
    ensures Sanitize(Sanitize(text)) == Sanitize(text)
  {
    var r := Sanitize(text);
    if |r| > 0 {
      StripTagsFixpoint(r);
      StripFixpoint(r);
    }
  }

  /** A field is cleaned to "" exactly when nothing but whitespace is left
      of it once its tags are gone (this covers the empty field). */
  lemma SanitizeBlankIff(text: string)
    ensures Sanitize(text) == "" <==> AllSpace(StripTags(text))
  {
    StripBlank(StripTags(text));
  }

  /** Text without any '<' is only trimmed. */
  lemma NoAngleOnlyTrims(text: string)
    requires '<' !in text
    ensures Sanitize(text) == Strip(text)
  {
    if |text| > 0 {
      assert NoTag(text);
      StripTagsFixpoint(text);
    }
  }

  /** A field with a visible character and no '<' is never cleaned to "". */
  lemma VisibleTextSurvives(text: string, i: nat)
    requires '<' !in text
    requires i < |text| && !IsSpace(text[i])
    ensures Sanitize(text) != ""
  {
    NoAngleOnlyTrims(text);
    StripBlank(text);
  }

  lemma TailNoClose(text: string, i: nat)
    requires i < |text| && text[i] == '<'
    requires '>' !in text[i + 1..]
    ensures '>' !in text[i..]
    ensures |text[i..]| > 0 && !IsSpace(text[i..][0])
  {
    assert text[i..] == [text[i]] + text[i + 1..];
  }

  /** A '<' with no '>' after it is kept, together with everything after
      it up to the trailing whitespace; only the part before it is cleaned. */
  lemma UnclosedAngleSurvives(text: string, i: nat)
    requires i < |text| && text[i] == '<'
    requires '>' !in text[i + 1..]
    ensures var head := StripTags(text[..i]);
      var tail := text[i..];
      && Trail(tail) < |tail|
      && Sanitize(text) == head[Lead(head)..] + tail[..|tail| - Trail(tail)]
  {
    var tail := text[i..];
    TailNoClose(text, i);
    StripTagsKeepsTail(text, i);
    StripConcat(StripTags(text[..i]), tail);
    TrailConcat("", tail);
  }

  /** In particular the unclosed '<' itself reaches the cleaned value. */
  lemma UnclosedAngleKept(text: string, i: nat)
    requires i < |text| && text[i] == '<'
    requires '>' !in text[i + 1..]
    ensures '<' in Sanitize(text)
  {
    var head := StripTags(text[..i]);
    var tail := text[i..];
    UnclosedAngleSurvives(text, i);
    var front := head[Lead(head)..];
    assert Sanitize(text)[|front|] == tail[0];
  }
}
